=== FILE: README.md ===
# drpc client: call registry, dispatch loop and send path

A Dafny model of the client side of the `drpc` RPC library (`client.go`,
with the `Header` envelope and codec registry of `codec/codec.go`). One client
multiplexes many calls over one connection. Each call is registered under a
sequence number. A single dispatch loop reads response frames and hands each one
to the pending call with the same number. When the connection fails, the client
drains: every call still pending is resolved with the error.

The model is functional. The registry of a `Client` is an immutable
`ClientState` record: the counter `nextSeq`, the `pending` map from
number to `Call`, the options, and the monotone `closing` / `shutdown` flags.
Every operation that `client.go` performs under its locks is one pure transition
on that record.

- `Wrappers`: `Option` (a Go nil) and `Result` (a `(value, error)` pair).
- `Codec`: `uint64` numbers with wrap-around (`Inc64`), the `Header`
  envelope, frame read outcomes, and the tag-to-encoding registry.
- `Client`: `NewClient`, `registerCall` (`Register`), `removeCall` (`Remove`),
  `terminateCalls`, `Close` and `IsAvailable`, plus the registry invariant
  `Valid`.
- `Dispatch`: one loop iteration (`DispatchFrame`). `conn.receive` is modelled
  as `Receive`, a fold over the frames the codec delivers.
- `Send`: `Go`'s channel check (`NewCall`) and `send`. `send` is split into
  registration plus header (`SendBegin`) and the write outcome (`SendFinish`),
  so a removal can come in between. The module also holds the cancellation
  branch of the synchronous `Call`.
- `Options`: `parseOption` and the codec-tag check that `Dial` makes first.
- `Trace`: any interleaving of the atomic registry operations. It proves the
  invariant, that handed-out numbers are unique and increase, and that the
  flags are monotone.

Completion of a call (`call.done()`, a send on its Done channel) is modelled as a
counter `signals` on the call. A call completed by the dispatch loop or by `send`
is returned from the operation that completed it. A call completed by the drain
stays in the registry: `terminateCalls` does not empty `pending`. `registerCall`
writes the assigned number into the caller's own `*Call`. `Send` therefore
returns the caller's call as `send` leaves it, and a later cancellation removes
the entry under that number.

Some behaviours of the code are easy to overlook; the model states them as the
code has them:

- A failing body read ends the dispatch loop, whatever the frame was: a
  discarded body, a body after a server error, or a reply body. The loop
  condition is `err == nil`, and every branch of the loop assigns the body
  read's error to `err`. The loop then drains with that error.
- `parseOption` returns the defaults whenever the first option is nil, even
  when more options follow. Only a non-nil first option followed by others is
  the "more than one option" error.
- `Close` looks only at `closing`. A client shut down by the dispatch loop can
  still be closed once, and that call returns the connection's close result.
- The counter is a `uint64` that wraps. After 2^64 - 1 registrations, the next
  call would be handed the number 0, which the code reserves for "no call"
  (`Client.CounterWrapsToZero`). The uniqueness lemmas therefore assume the
  counter does not wrap during the operations they cover.

## Model

| member | source | states |
|---|---|---|
| Codec.Inc64 | client.go:259 | the `uint64` increment adds one below 2^64-1 and wraps to 0 at 2^64-1 |
| Codec.Lookup | codec/codec.go:33-40 | a tag finds an encoding exactly when it is "application/gob" or "application/json", and the encoding found is the one registered under that tag |
| Codec.LookupTypeTag | codec/codec.go:26-40 | every registered encoding is found again under its own tag |
| Client.Call.Signal | client.go:29-31 | `call.done()` adds exactly one completion to the call and changes nothing else about it |
| Client.IsAvailable | client.go:62-67 | a client is available exactly when neither `shutdown` nor `closing` is set, which is the negation of the condition `registerCall` refuses on (client.go:253) |
| Client.NewClient | client.go:72-80 | a new client is valid and available, nothing is pending, the first number it will hand out is 1, and 0 is not in use |
| Client.Register | client.go:250-261 | registration fails exactly when the client is not available; it then returns (0, ErrShutdown) and changes nothing; otherwise it files the call under the old counter value, advances the counter, and leaves every other entry and the flags alone |
| Client.RegisterIsFresh | client.go:250-261 | on a valid registry that has not reached the counter's last value, a registration hands out a non-zero number that is not pending, adds exactly one entry, keeps every existing entry, and keeps the registry valid |
| Client.CounterWrapsToZero | client.go:257-259 | once 2^64-1 has been handed out, the next registration is handed the reserved number 0 |
| Client.Remove | client.go:263-270 | removal returns the call filed under the number exactly when one is filed; it deletes only that key and changes nothing else |
| Client.RemoveIdempotent | client.go:264-270 | a second removal of the same number returns nil and changes nothing |
| Client.RemoveZeroIsNoop | client.go:76 | a valid registry never holds 0, so removing 0 changes nothing |
| Client.RemoveUndoesRegister | client.go:250-270 | removing a just-registered call returns that call and restores the pending map as it was before the registration |
| Client.RemovePreservesValid | client.go:264-270 | removal keeps the registry invariant |
| Client.TerminateCalls | client.go:272-282 | the drain marks the client shut down (so it is no longer available); every pending call gets the error and one more completion; no call is removed |
| Client.TerminateDisablesRegistration | client.go:250-282 | after a drain, the registry is still valid and every registration is refused with ErrShutdown |
| Client.Close | client.go:51-60 | the first close sets `closing` and returns the connection's close result; later closes return ErrShutdown and change nothing; afterwards the client is unavailable |
| Client.CloseTwice | client.go:52-60 | a second close returns ErrShutdown without any state change, whatever the connection would say |
| Dispatch.DispatchFrame | client.go:231-245 | a frame always removes its number from the registry; a call completes exactly when one was pending under that number; a server error becomes the call's error and the reply is kept; otherwise the body becomes the reply, or a body error becomes "read body failed"; any body error is the loop's error |
| Dispatch.Completion | client.go:235-244 | applying a response to a call keeps its number, method, arguments and channel and adds one completion; a server error becomes its error and leaves the reply; otherwise the body becomes the reply, or a failed body read becomes "read body failed" |
| Dispatch.UnmatchedFrameIsDiscarded | client.go:231-234 | a frame for a number that is not pending leaves the registry unchanged and completes nothing |
| Dispatch.Receive | client.go:223-248 | the loop still runs exactly when no frame failed to read; once it ends, the client is shut down and unavailable; the counter and `closing` never change; calls only leave the registry |
| Dispatch.ReceiveStopsAtFirstFailure | client.go:224-247 | frames after the first failing read make no difference, and the loop ends with that frame's error |
| Dispatch.ReceivePreservesValid | client.go:224-247 | the loop keeps the registry invariant |
| Dispatch.ReceiveCompletesPendingCallsOnce | client.go:231-245 | whatever order the responses arrive in, every call the loop completes is the call that was pending under the response's number, with the same method, arguments and Done channel and one more completion; it has left the registry and is completed only once |
| Dispatch.ReceiveDeliversMatchingReply | client.go:224-247 | response order does not decide who gets which reply: every call the loop completes was pending, and is exactly that call with the reply or error of a received response carrying its number |
| Dispatch.ReceiveDeliversEveryResponse | client.go:224-244 | every response read before the first failing frame, for a call pending under its number and not answered by an earlier frame, completes that call with the response's reply or error |
| Dispatch.ReceiveAccountsForEveryCall | client.go:224-247 | every call pending when the loop starts is either completed by a response or still pending afterwards |
| Dispatch.ReceiveDrainsOnTermination | client.go:272-282 | when the loop ends, every call left pending is the call pending at the start with the loop's error set and one more completion; while the loop runs, pending calls are untouched |
| Dispatch.TerminatedLoopResolvesEveryCall | client.go:224-282 | after the loop ends, every call that was pending has been completed either by a response carrying its number, whose reply or error it holds, or by the drain with the loop's error |
| Dispatch.LateResponseAfterRemovalIsDiscarded | client.go:382-390 | a late response for a cancelled call is discarded and leaves the registry unchanged |
| Send.NewCall | client.go:361-378 | `Go` panics exactly on an unbuffered channel; otherwise the call gets a channel of capacity at least 1 (10 when none is given), no number, no error and no completion |
| Send.SendBegin | client.go:337-351 | a refused registration completes the call with ErrShutdown and writes nothing; otherwise the caller's own call is given the assigned number, the written header carries that number and an empty error, and the same call is pending under it |
| Send.SendFinish | client.go:352-358 | a successful write changes nothing; a failed write removes the number and, if the call was still pending, completes it with the write error |
| Send.Send | client.go:337-359 | a header is written exactly when the client is available, carrying the counter's value and an empty error, and the caller's call then holds that number; `send` completes the call itself exactly when the client refuses it or the write fails |
| Send.RefusedSendNeverWrites | client.go:341-346 | a send on an unavailable client writes nothing, leaves the registry alone, and completes the call once with ErrShutdown |
| Send.SuccessfulSendLeavesCallPending | client.go:341-352 | after a successful write, the call is pending under the number in the header and is not yet completed |
| Send.FailedWriteRestoresRegistry | client.go:352-358 | after a failed write, the pending map is as it was before the send, only the counter has advanced, and the call is completed with the write error |
| Send.WriteFailureAfterRemovalIsNoop | client.go:352-358 | a failed write for a call that has already left the registry changes nothing and completes nothing |
| Send.Cancel | client.go:380-390 | cancellation removes the call's number from the registry and returns the context's error |
| Send.CancelBeforeRegistrationIsNoop | client.go:382-390 | cancelling before `send` has numbered the call changes nothing in a valid registry |
| Send.CancelNewCallIsNoop | client.go:361-387 | the call `Go` builds has no number yet, so cancelling it before `send` runs changes nothing in a valid registry |
| Send.SendThenCancelRestoresRegistry | client.go:337-390 | cancelling a call `send` has filed removes its entry, because the caller's call carries the assigned number: the pending map is as before the send, and a late response for that number is discarded |
| Options.ParseOption | client.go:284-303 | merging fails exactly when the first option is non-nil and more follow; no option or a nil first option gives the defaults; one option keeps its non-empty fields, takes the defaults for empty ones, and always takes the default magic number |
| Options.ParsedOptionIsFilledIn | client.go:291-302 | when the defaults are non-empty, no field of a merged option is empty |
| Options.ParseOptionIdempotent | client.go:284-303 | merging a merged option again gives it back unchanged |
| Options.NilFirstOptionIgnoresTheRest | client.go:285-287 | with a nil first option, further options are ignored rather than rejected |
| Options.SelectCodec | client.go:92-97 | the intended codec-tag check: a tag is accepted exactly when an encoding is registered under it, and an unknown tag yields the "invalid codec type" error |
| Options.DeferredClose | client.go:86-90 | the deferred close returns the error to the caller exactly when a connection was dialled, and panics on the nil connection otherwise |
| Options.DialCodecCheckAsWritten | client.go:84-97 | as written, `Dial` goes on exactly when the tag is registered, and on any other tag it panics instead of returning an error |
| Options.UnknownCodecTagPanics | client.go:85-97 | for every unregistered tag, the code as written panics while the intended check returns "invalid codec type" |
| Options.CodecTagXPanics | client.go:85-97 | the tag "x" makes `Dial` panic |
| Options.SelectCodecCorrectsDialCheck | client.go:84-97 | the intended check agrees with the code wherever the code goes on, and returns the error exactly where the code panics |
| Trace.StepPreservesValid | client.go:250-282 | every atomic registry operation keeps the invariant and moves the counter by at most one, as long as the counter is below its last value |
| Trace.RunPreservesValid | client.go:250-282 | any sequence of operations that cannot wrap the counter keeps the invariant |
| Trace.AssignedNumbersIncrease | client.go:250-261 | whatever runs in between, successive registrations get strictly increasing numbers; none is 0 or already pending, and all are below the final counter |
| Trace.UnavailableIsFinal | client.go:52-67 | `closing` and `shutdown` never go back to false; once the client is unavailable, no later registration succeeds and no call is added |

## Left out

- `Dial`, `DialHTTP`, `verifyHTTPTimeout` and `initCodecTimeout` (client.go:84-214): network dialing, the HTTP CONNECT exchange, JSON encoding of the option, and the timer races. Only the codec-tag check at the start of `Dial` is modelled, together with the deferred close that follows it (`Options.DialCodecCheckAsWritten`). The same deferred close would also run on a nil connection after a failed `net.DialTimeout`; that path is not modelled.
- The `sending` and `mu` locks, the goroutine `Go` spawns for `send`, and the `select` in `Call`: each operation is one atomic step, in any order (`Trace`). Cancellation is the removal of the call's number (`Send.Cancel`). The branch that waits on the Done channel only returns the call's error and is not modelled separately.
- The concrete Gob and JSON codecs, and the `conn` type: the codec is seen only through its read outcomes (`Codec.Frame`) and the outcome of its `Write`. The result of closing the connection is a parameter of `Close`.
- `Args` and `Reply` contents are opaque byte sequences. A failed body read is modelled as leaving the reply unchanged, although a real decoder may have partly written it.
- `Dispatch.DispatchFrame`: the server's error string becomes the call's error verbatim; that `fmt.Errorf` reads it as a format string (so `%` verbs would be rewritten) is not modelled.
- The values of `defaultOption` lie outside the modelled code, so `Options.ParseOption` takes the defaults as a parameter. That `parseOption` writes into the caller's `Option` and returns a pointer to the shared default is pointer aliasing and is not modelled.
- `call.done()` blocks when the Done channel is full. The model counts completions (`signals`) and does not model the channel's buffer beyond `Go`'s capacity check.
- `send` reuses one `Header` field of the client for every write; the model writes a fresh header value.
- Logging.
- Trace.AssignedNumbersIncrease: requires the starting counter plus the number of operations of every kind to be at most 2^64 - 1, so the counter cannot wrap; the code itself hands out 0 again after wrapping (`Client.CounterWrapsToZero`).
- Trace.RunPreservesValid: requires the same bound (starting counter plus number of operations at most 2^64 - 1), for the same reason.

## Findings

| source | as written | input that shows it | evidently intended | confidence | as-written member | corrected member |
|---|---|---|---|---|---|---|
| client.go:84-97 (and client.go:119-131 in `DialHTTP`) | an unregistered codec tag sets `err` and returns; the deferred function then calls `rwc.Close()` on the nil `net.Conn` declared at client.go:85, which panics | an option whose `CodecType` is "x" | `Dial` returns the "invalid codec type x" error to its caller | high; not executed | Options.DialCodecCheckAsWritten (shown by Options.UnknownCodecTagPanics and Options.CodecTagXPanics) | Options.SelectCodec (related by Options.SelectCodecCorrectsDialCheck) |

=== FILE: client.dfy ===
/** The call registry of client.go: the sequence counter, the map of pending
    calls and the `closing` / `shutdown` flags. Each operation is one atomic
    transition on an immutable `ClientState`; the `mu` lock that makes it atomic
    in the source is not modelled. */
module Client {
  import opened Wrappers
  import opened Codec

  /** The error values the client produces or passes on. */
  datatype Error =
    | ErrShutdown                  // "connection is closed"
    | CodecFailure(msg: string)    // an error returned by the codec or the connection
    | Remote(msg: string)          // the error string a response header carries
    | BodyReadFailed(cause: string)  // "read body failed, err:" + cause
    | Canceled(cause: string)      // "rpc client: call failed: " + the context's error
    | TooManyOptions               // "number of options is more than 1"
    | InvalidCodecType(tag: string)  // "invalid codec type <tag>"
    | UnbufferedDone               // the panic "rpc: done channel is unbuffered"

  /** The connection options (`Option`); durations are nanosecond counts. */
  datatype Opt = Opt(magicNumber: int, codecType: string, connectionTimeout: int, handleTimeout: int)

  /** One RPC. `doneCap` is the capacity of its Done channel and `signals`
      counts the completions sent on it. */
  datatype Call = Call(
    seqNo: Uint64,
    serviceMethod: string,
    args: Value,
    reply: Value,
    error: Option<Error>,
    doneCap: nat,
    signals: nat)
  {
    /** `call.done()`: one more completion on the Done channel; nothing else
        about the call changes. */
    function Signal(): (r: Call)
      ensures r.signals == signals + 1
      ensures r.seqNo == seqNo && r.serviceMethod == serviceMethod && r.args == args
      ensures r.reply == reply && r.error == error && r.doneCap == doneCap
    {
      this.(signals := signals + 1)
    }

    /** `call.Error = e`. */
    function Fail(e: Error): Call {
      this.(error := Some(e))
    }
  }

  /** The registry part of a `Client`. */
  datatype ClientState = ClientState(
    opt: Opt,
    nextSeq: Uint64,
    pending: map<Uint64, Call>,
    closing: bool,
    shutdown: bool)

  /** The registry invariant: the counter never rests on the reserved number 0,
      every pending call sits under the number it was assigned, and every
      number in use is below the counter. */
  predicate Valid(c: ClientState) {
    && 1 <= c.nextSeq
    && forall k :: k in c.pending ==> 1 <= k < c.nextSeq && c.pending[k].seqNo == k
  }

  /** `IsAvailable`: whether new calls are accepted, which is exactly when
      neither of the two conditions `registerCall` refuses on holds. */
  function IsAvailable(c: ClientState): (r: bool)
    ensures r <==> !(c.shutdown || c.closing)
  {
    !c.shutdown && !c.closing
  }

  /** `NewClient`: counting starts at 1, so that 0 can mean "no call". */
  function NewClient(opt: Opt): (c: ClientState)
    ensures Valid(c) && IsAvailable(c)
    ensures c.opt == opt && c.pending == map[] && c.nextSeq == 1
    ensures 0 !in c.pending
  {
    ClientState(opt, 1, map[], false, false)
  }

  /** Result of `registerCall`: the new state, the number handed out and the error. */
  datatype Registration = Registration(state: ClientState, seqNo: Uint64, err: Option<Error>)

  /** `registerCall`: refuse once closing or shut down, otherwise file the call
      under the current counter and advance it. */
  function Register(c: ClientState, call: Call): (r: Registration)
    ensures r.err.None? <==> IsAvailable(c)
    ensures r.err.Some? ==> r == Registration(c, 0, Some(ErrShutdown))
    ensures r.err.None? ==>
      && r.seqNo == c.nextSeq
      && r.state.pending.Keys == c.pending.Keys + {c.nextSeq}
      && r.state.pending[c.nextSeq] == call.(seqNo := c.nextSeq)
      && (forall k :: k in c.pending && k != c.nextSeq ==> r.state.pending[k] == c.pending[k])
      && r.state.nextSeq == Inc64(c.nextSeq)
      && r.state.opt == c.opt && r.state.closing == c.closing && r.state.shutdown == c.shutdown
  {
    if c.shutdown || c.closing then
      Registration(c, 0, Some(ErrShutdown))
    else
      var filed := call.(seqNo := c.nextSeq);
      Registration(c.(pending := c.pending[c.nextSeq := filed], nextSeq := Inc64(c.nextSeq)), c.nextSeq, None)
  }

  /** On a valid registry whose counter has not reached its last value, a
      successful registration hands out a fresh non-zero number, adds exactly
      one entry, leaves every other entry alone and keeps the registry valid. */
  lemma RegisterIsFresh(c: ClientState, call: Call)
    requires Valid(c) && IsAvailable(c) && c.nextSeq < MaxUint64
    ensures var r := Register(c, call);
      && r.err.None?
      && r.seqNo != 0
      && r.seqNo !in c.pending
      && r.seqNo < r.state.nextSeq
      && |r.state.pending| == |c.pending| + 1
      && (forall k :: k in c.pending ==> k in r.state.pending && r.state.pending[k] == c.pending[k])
      && Valid(r.state)
  {
    var r := Register(c, call);
    assert r.state.pending.Keys == c.pending.Keys + {c.nextSeq};
    assert c.nextSeq !in c.pending.Keys;
  }

  /** The uint64 counter wraps: after the number 2^64-1 has been handed out, the
      next registration is handed the reserved number 0. */
  lemma CounterWrapsToZero(c: ClientState, first: Call, second: Call)
    requires IsAvailable(c) && c.nextSeq == MaxUint64
    ensures var r1 := Register(c, first);
      && r1.err.None? && r1.seqNo == MaxUint64
      && var r2 := Register(r1.state, second);
      && r2.err.None? && r2.seqNo == 0 && 0 in r2.state.pending
  {
  }

  /** Result of `removeCall`: the new state and the call removed (None for nil). */
  datatype Removal = Removal(state: ClientState, call: Option<Call>)

  /** `removeCall`: take the call filed under `s`, if any, out of the registry. */
  function Remove(c: ClientState, s: Uint64): (r: Removal)
    ensures r.call.Some? <==> s in c.pending
    ensures r.call.Some? ==> r.call.value == c.pending[s]
    ensures s !in r.state.pending
    ensures r.state.pending.Keys == c.pending.Keys - {s}
    ensures forall k :: k in r.state.pending ==> r.state.pending[k] == c.pending[k]
    ensures r.state.nextSeq == c.nextSeq && r.state.opt == c.opt
    ensures r.state.closing == c.closing && r.state.shutdown == c.shutdown
  {
    var call := if s in c.pending then Some(c.pending[s]) else None;
    Removal(c.(pending := c.pending - {s}), call)
  }

  /** Removing twice is harmless: the second removal finds nothing and changes nothing. */
  lemma RemoveIdempotent(c: ClientState, s: Uint64)
    ensures var r1 := Remove(c, s);
      var r2 := Remove(r1.state, s);
      r2.call == None && r2.state == r1.state
  {
    var r1 := Remove(c, s);
    assert r1.state.pending - {s} == r1.state.pending;
  }

  /** On a valid registry the reserved number 0 is never filed, so removing it
      (what a cancelled call does before `send` has assigned its number) is a no-op. */
  lemma RemoveZeroIsNoop(c: ClientState)
    requires Valid(c)
    ensures Remove(c, 0) == Removal(c, None)
  {
    assert c.pending - {0} == c.pending;
  }

  /** Removing a just-registered call gives back that call and the pending map
      as it was before the registration. */
  lemma RemoveUndoesRegister(c: ClientState, call: Call)
    requires Valid(c) && IsAvailable(c)
    ensures var reg := Register(c, call);
      var rem := Remove(reg.state, reg.seqNo);
      && rem.call == Some(call.(seqNo := c.nextSeq))
      && rem.state.pending == c.pending
  {
    var reg := Register(c, call);
    var rem := Remove(reg.state, reg.seqNo);
    assert c.nextSeq !in c.pending;
    assert rem.state.pending.Keys == c.pending.Keys;
  }

  /** Removal keeps a valid registry valid. */
  lemma RemovePreservesValid(c: ClientState, s: Uint64)
    requires Valid(c)
    ensures Valid(Remove(c, s).state)
  {
  }

  /** `terminateCalls`: mark the client shut down and stamp every pending call
      with `err` and signal it. The pending map is not emptied. */
  function TerminateCalls(c: ClientState, err: Error): (r: ClientState)
    ensures r.shutdown && !IsAvailable(r)
    ensures r.pending.Keys == c.pending.Keys
    ensures forall k :: k in c.pending ==>
      r.pending[k] == c.pending[k].(error := Some(err), signals := c.pending[k].signals + 1)
    ensures r.nextSeq == c.nextSeq && r.closing == c.closing && r.opt == c.opt
  {
    c.(shutdown := true, pending := map k | k in c.pending :: c.pending[k].Fail(err).Signal())
  }

  /** After draining, every registration is refused and the drain keeps the
      registry valid. */
  lemma TerminateDisablesRegistration(c: ClientState, err: Error, call: Call)
    requires Valid(c)
    ensures var d := TerminateCalls(c, err);
      && Valid(d)
      && Register(d, call) == Registration(d, 0, Some(ErrShutdown))
  {
  }

  /** Result of `Close`: the new state and the returned error. */
  datatype Closed = Closed(state: ClientState, err: Option<Error>)

  /** `Close`: the first call sets `closing` and returns what closing the
      connection returned (`connClose`); later calls return ErrShutdown. Only
      `closing` is consulted, not `shutdown`. */
  function Close(c: ClientState, connClose: Option<Error>): (r: Closed)
    ensures r.state.closing && !IsAvailable(r.state)
    ensures c.closing ==> r == Closed(c, Some(ErrShutdown))
    ensures !c.closing ==> r.err == connClose && r.state == c.(closing := true)
  {
    if c.closing then Closed(c, Some(ErrShutdown))
    else Closed(c.(closing := true), connClose)
  }

  /** A second `Close` returns ErrShutdown and changes nothing, whatever the
      connection would have said. */
  lemma CloseTwice(c: ClientState, first: Option<Error>, second: Option<Error>)
    ensures var r1 := Close(c, first);
      Close(r1.state, second) == Closed(r1.state, Some(ErrShutdown))
  {
  }
}

=== FILE: codec.dfy ===
/** The frame-level codec contract of codec/codec.go. The concrete Gob and JSON
    codecs are not part of this model: a codec is seen only through the
    outcomes of its reads, one `Frame` per header read plus the body read
    that follows it. */
module Codec {
  import opened Wrappers

  /** Largest value of Go's `uint64`. */
  const MaxUint64: int := 0xFFFF_FFFF_FFFF_FFFF

  /** Go's `uint64`: sequence numbers on the wire and in the registry. */
  type Uint64 = n: int | 0 <= n <= MaxUint64

  /** Go's `n++` on a `uint64`: arithmetic modulo 2^64. */
  function Inc64(n: Uint64): (r: Uint64)
    ensures n < MaxUint64 ==> r == n + 1 && r > n
    ensures n == MaxUint64 ==> r == 0
  {
    (n + 1) % (MaxUint64 + 1)
  }

  /** The opaque contents of an argument or a reply, as the codec would encode it. */
  type Value = seq<bv8>

  /** The wire envelope of a request or a response; `error` is empty on success. */
  datatype Header = Header(serviceMethod: string, seqNo: Uint64, error: string)

  /** Outcome of one `ReadBody` call: the decoded body, or the codec's error text. */
  datatype BodyRead = BodyOk(value: Value) | BodyFailed(msg: string)

  /** Outcome of one `ReadHeader` call and, when it succeeds, of the `ReadBody`
      call that the dispatch loop always makes next. */
  datatype Frame =
    | HeaderFailed(msg: string)
    | Received(header: Header, body: BodyRead)
  {
    /** True when reading this frame returns an error, whichever read it was. */
    predicate Fails() {
      HeaderFailed? || body.BodyFailed?
    }

    /** The codec's error text for a failing frame. */
    function FailureText(): string
      requires Fails()
    {
      if HeaderFailed? then msg else body.msg
    }
  }

  /** The two encodings registered in `NewCodecFuncMap`. */
  datatype CodecKind = Gob | Json

  const GobType: string := "application/gob"
  const JsonType: string := "application/json"

  /** The `Type` tag under which each encoding is registered. */
  function TypeTag(k: CodecKind): string {
    match k
    case Gob => GobType
    case Json => JsonType
  }

  /** `NewCodecFuncMap[tag]`: the registered encoding for a tag, or None (nil). */
  function Lookup(tag: string): (r: Option<CodecKind>)
    ensures r.Some? <==> tag in {GobType, JsonType}
    ensures r.Some? ==> TypeTag(r.value) == tag
  {
    if tag == GobType then Some(Gob)
    else if tag == JsonType then Some(Json)
    else None
  }

  /** Every registered encoding is found again under its own tag. */
  lemma LookupTypeTag(k: CodecKind)
    ensures Lookup(TypeTag(k)) == Some(k)
  {
  }
}

=== FILE: dispatch.dfy ===
/** The dispatch loop `conn.receive` of client.go, run sequentially over the
    frames the codec delivers: each response is matched to its pending call by
    sequence number, and the first read error of either kind ends the loop and
    drains the registry. */
module Dispatch {
  import opened Wrappers
  import opened Codec
  import opened Client

  /** Result of one loop iteration: the new registry, the call it completed (if
      any) and the error the body read returned (the loop's `err`). */
  datatype Dispatched = Dispatched(state: ClientState, resolved: Option<Call>, err: Option<Error>)

  /** The call `call` once the response `h` with body read `body` has been
      applied to it: a server error becomes its error and the body is
      discarded; otherwise the body becomes its reply, or a failed body read
      becomes its error. Either way it is signalled once. */
  function Completion(call: Call, h: Header, body: BodyRead): (r: Call)
    ensures r.seqNo == call.seqNo && r.serviceMethod == call.serviceMethod
    ensures r.args == call.args && r.doneCap == call.doneCap
    ensures r.signals == call.signals + 1
    ensures h.error != "" ==> r.error == Some(Remote(h.error)) && r.reply == call.reply
    ensures h.error == "" && body.BodyOk? ==> r.error == call.error && r.reply == body.value
    ensures h.error == "" && body.BodyFailed? ==>
      r.error == Some(BodyReadFailed(body.msg)) && r.reply == call.reply
  {
    if h.error != "" then call.Fail(Remote(h.error)).Signal()
    else if body.BodyOk? then call.(reply := body.value).Signal()
    else call.Fail(BodyReadFailed(body.msg)).Signal()
  }

  /** One iteration after a successful header read: remove the call filed under
      the header's number, then read the body into its reply or discard it. */
  function DispatchFrame(c: ClientState, h: Header, body: BodyRead): (r: Dispatched)
    ensures r.state == Remove(c, h.seqNo).state
    ensures r.err.Some? <==> body.BodyFailed?
    ensures body.BodyFailed? ==> r.err == Some(CodecFailure(body.msg))
    ensures r.resolved.Some? <==> h.seqNo in c.pending
    ensures r.resolved.Some? ==> r.resolved.value == Completion(c.pending[h.seqNo], h, body)
  {
    var removal := Remove(c, h.seqNo);
    var err := if body.BodyFailed? then Some(CodecFailure(body.msg)) else None;
    match removal.call
    case None => Dispatched(removal.state, None, err)
    case Some(call) => Dispatched(removal.state, Some(Completion(call, h, body)), err)
  }

  /** A response for a number that is not pending (never issued, already
      completed or cancelled) is read and discarded without touching anything. */
  lemma UnmatchedFrameIsDiscarded(c: ClientState, h: Header, body: BodyRead)
    requires h.seqNo !in c.pending
    ensures var r := DispatchFrame(c, h, body);
      r.state == c && r.resolved == None
  {
    assert c.pending - {h.seqNo} == c.pending;
  }

  /** Whether the loop is still reading or has ended with an error. */
  datatype LoopStatus = Running | Terminated(err: Error)

  /** Result of running the loop over a finite stream of frames: the registry,
      the calls completed by responses in the order they completed, and the
      loop's status. */
  datatype LoopResult = LoopResult(state: ClientState, resolved: seq<Call>, status: LoopStatus)

  /** `conn.receive` over the frames the codec delivers. A failing header read
      or a failing body read ends the loop with that error and then runs
      `terminateCalls` with it; frames after it are never read. When the
      frames run out without an error the loop is still running. */
  function Receive(c: ClientState, frames: seq<Frame>): (r: LoopResult)
    ensures r.status.Running? <==> forall i :: 0 <= i < |frames| ==> !frames[i].Fails()
    ensures r.status.Terminated? ==> r.state.shutdown && !IsAvailable(r.state)
    ensures r.state.nextSeq == c.nextSeq && r.state.closing == c.closing && r.state.opt == c.opt
    ensures r.state.pending.Keys <= c.pending.Keys
    ensures |r.resolved| <= |frames|
    decreases |frames|
  {
    if |frames| == 0 then
      LoopResult(c, [], Running)
    else
      match frames[0]
      case HeaderFailed(msg) =>
        LoopResult(TerminateCalls(c, CodecFailure(msg)), [], Terminated(CodecFailure(msg)))
      case Received(h, body) =>
        var d := DispatchFrame(c, h, body);
        var done := if d.resolved.Some? then [d.resolved.value] else [];
        if d.err.Some? then
          LoopResult(TerminateCalls(d.state, d.err.value), done, Terminated(d.err.value))
        else
          var rest := Receive(d.state, frames[1..]);
          assert forall i :: 1 <= i < |frames| ==> frames[1..][i - 1] == frames[i];
          LoopResult(rest.state, done + rest.resolved, rest.status)
  }

  /** The loop reads frames in order and stops at the first failing one: the
      frames after it make no difference, and the loop ends with that frame's
      error. */
  lemma {:induction false} ReceiveStopsAtFirstFailure(c: ClientState, frames: seq<Frame>, n: nat)
    requires n < |frames| && frames[n].Fails()
    requires forall i :: 0 <= i < n ==> !frames[i].Fails()
    ensures Receive(c, frames) == Receive(c, frames[..n + 1])
    ensures Receive(c, frames).status == Terminated(CodecFailure(frames[n].FailureText()))
    decreases n
  {
    if n > 0 {
      match frames[0]
      case Received(h, body) =>
        var d := DispatchFrame(c, h, body);
        assert frames[..n + 1][1..] == frames[1..][..n];
        ReceiveStopsAtFirstFailure(d.state, frames[1..], n - 1);
    }
  }

  /** The loop keeps a valid registry valid. */
  lemma {:induction false} ReceivePreservesValid(c: ClientState, frames: seq<Frame>)
    requires Valid(c)
    ensures Valid(Receive(c, frames).state)
    decreases |frames|
  {
    if |frames| > 0 {
      match frames[0]
      case HeaderFailed(msg) =>
      case Received(h, body) =>
        RemovePreservesValid(c, h.seqNo);
        var d := DispatchFrame(c, h, body);
        if d.err.None? {
          ReceivePreservesValid(d.state, frames[1..]);
        }
    }
  }

  /** `done` is the call `filed` after one completion: the same number, method,
      arguments and Done channel, with one more signal; only its reply and
      error may differ. */
  ghost predicate CompletionOf(filed: Call, done: Call) {
    && done.seqNo == filed.seqNo
    && done.serviceMethod == filed.serviceMethod
    && done.args == filed.args
    && done.doneCap == filed.doneCap
    && done.signals == filed.signals + 1
  }

  /** Every call in `r.resolved` is the completion of the call pending in
      `before` under its number, is no longer pending in `r.state`, and appears
      only once. */
  ghost predicate CompletedOnce(before: ClientState, r: LoopResult) {
    && (forall i :: 0 <= i < |r.resolved| ==>
          && r.resolved[i].seqNo in before.pending
          && r.resolved[i].seqNo !in r.state.pending
          && CompletionOf(before.pending[r.resolved[i].seqNo], r.resolved[i]))
    && (forall i, j :: 0 <= i < j < |r.resolved| ==> r.resolved[i].seqNo != r.resolved[j].seqNo)
  }

  /** Every call the loop completes is the call that was pending under the
      response's number, whatever order the responses come in: it keeps its
      method, arguments and channel, has left the registry, and is completed
      only once. */
  lemma {:induction false} ReceiveCompletesPendingCallsOnce(c: ClientState, frames: seq<Frame>)
    requires Valid(c)
    ensures CompletedOnce(c, Receive(c, frames))
    decreases |frames|
  {
    if |frames| > 0 {
      match frames[0]
      case HeaderFailed(msg) =>
      case Received(h, body) =>
        RemovePreservesValid(c, h.seqNo);
        var d := DispatchFrame(c, h, body);
        if d.err.None? {
          var rest := Receive(d.state, frames[1..]);
          ReceiveCompletesPendingCallsOnce(d.state, frames[1..]);
          assert CompletedOnce(d.state, rest);
          var done := if d.resolved.Some? then [d.resolved.value] else [];
          assert Receive(c, frames) == LoopResult(rest.state, done + rest.resolved, rest.status);
          assert forall i :: 0 <= i < |rest.resolved| ==> rest.resolved[i].seqNo != h.seqNo;
        }
    }
  }

  /** Every call in `r.resolved` was pending in `before` and is exactly that
      call completed by one of the frames carrying its number. */
  ghost predicate RepliedBy(before: ClientState, frames: seq<Frame>, r: LoopResult) {
    forall i :: 0 <= i < |r.resolved| ==>
      && r.resolved[i].seqNo in before.pending
      && exists j ::
           && 0 <= j < |frames| && frames[j].Received? && frames[j].header.seqNo == r.resolved[i].seqNo
           && r.resolved[i] == Completion(before.pending[r.resolved[i].seqNo], frames[j].header, frames[j].body)
  }

  /** Response order does not decide who gets which reply: every call the loop
      completes carries the reply or error of a response with its own number,
      applied to the call that was pending under that number. */
  lemma {:induction false} ReceiveDeliversMatchingReply(c: ClientState, frames: seq<Frame>)
    requires Valid(c)
    ensures RepliedBy(c, frames, Receive(c, frames))
    decreases |frames|
  {
    var r := Receive(c, frames);
    if |frames| > 0 {
      match frames[0]
      case HeaderFailed(msg) =>
      case Received(h, body) =>
        var d := DispatchFrame(c, h, body);
        RemovePreservesValid(c, h.seqNo);
        var done := if d.resolved.Some? then [d.resolved.value] else [];
        if d.err.None? {
          var rest := Receive(d.state, frames[1..]);
          ReceiveDeliversMatchingReply(d.state, frames[1..]);
          assert RepliedBy(d.state, frames[1..], rest);
          assert r == LoopResult(rest.state, done + rest.resolved, rest.status);
          forall i | 0 <= i < |r.resolved|
            ensures r.resolved[i].seqNo in c.pending
            ensures exists j ::
              && 0 <= j < |frames| && frames[j].Received? && frames[j].header.seqNo == r.resolved[i].seqNo
              && r.resolved[i] == Completion(c.pending[r.resolved[i].seqNo], frames[j].header, frames[j].body)
          {
            if i < |done| {
              assert frames[0].header.seqNo == r.resolved[i].seqNo;
            } else {
              var k := rest.resolved[i - |done|];
              assert r.resolved[i] == k;
              var j :| 0 <= j < |frames[1..]| && frames[1..][j].Received? && frames[1..][j].header.seqNo == k.seqNo
                && k == Completion(d.state.pending[k.seqNo], frames[1..][j].header, frames[1..][j].body);
              assert frames[j + 1] == frames[1..][j];
            }
          }
        } else {
          assert r.resolved == done;
          if |done| > 0 {
            assert frames[0].header.seqNo == r.resolved[0].seqNo;
          }
        }
    }
  }

  /** `call` is among the calls `r` completed. */
  ghost predicate Delivered(r: LoopResult, call: Call) {
    exists i :: 0 <= i < |r.resolved| && r.resolved[i] == call
  }

  /** The converse of `ReceiveDeliversMatchingReply`: a response read before
      any failing frame, for a call pending under its number and not answered
      by an earlier frame, completes that call with its reply or error. */
  lemma {:induction false} ReceiveDeliversEveryResponse(c: ClientState, frames: seq<Frame>, j: nat)
    requires Valid(c)
    requires j < |frames| && frames[j].Received? && frames[j].header.seqNo in c.pending
    requires forall i :: 0 <= i < j ==> !frames[i].Fails()
    requires forall i :: 0 <= i < j ==> !(frames[i].Received? && frames[i].header.seqNo == frames[j].header.seqNo)
    ensures Delivered(Receive(c, frames),
      Completion(c.pending[frames[j].header.seqNo], frames[j].header, frames[j].body))
    decreases j
  {
    var r := Receive(c, frames);
    var n := frames[j].header.seqNo;
    match frames[0]
    case Received(h, body) =>
      var d := DispatchFrame(c, h, body);
      var done := if d.resolved.Some? then [d.resolved.value] else [];
      if j == 0 {
        assert r.resolved[0] == Completion(c.pending[n], h, body);
      } else {
        RemovePreservesValid(c, h.seqNo);
        assert !frames[0].Fails();
        var rest := Receive(d.state, frames[1..]);
        assert r == LoopResult(rest.state, done + rest.resolved, rest.status);
        assert frames[1..][j - 1] == frames[j];
        ReceiveDeliversEveryResponse(d.state, frames[1..], j - 1);
        var i :| 0 <= i < |rest.resolved| && rest.resolved[i] == Completion(d.state.pending[n], frames[j].header, frames[j].body);
        assert r.resolved[|done| + i] == rest.resolved[i];
      }
  }

  /** Every call pending in `before` is either still pending in `r.state` or
      among the calls `r` completed. */
  ghost predicate Accounted(before: ClientState, r: LoopResult) {
    forall k :: k in before.pending ==>
      k in r.state.pending || exists i :: 0 <= i < |r.resolved| && r.resolved[i].seqNo == k
  }

  /** No call is lost by the loop: every call pending when it starts is either
      completed by a response or still pending afterwards. */
  lemma {:induction false} ReceiveAccountsForEveryCall(c: ClientState, frames: seq<Frame>)
    requires Valid(c)
    ensures Accounted(c, Receive(c, frames))
    decreases |frames|
  {
    var r := Receive(c, frames);
    if |frames| > 0 {
      match frames[0]
      case HeaderFailed(msg) =>
      case Received(h, body) =>
        var d := DispatchFrame(c, h, body);
        RemovePreservesValid(c, h.seqNo);
        var done := if d.resolved.Some? then [d.resolved.value] else [];
        if d.err.None? {
          var rest := Receive(d.state, frames[1..]);
          ReceiveAccountsForEveryCall(d.state, frames[1..]);
          assert Accounted(d.state, rest);
          assert r == LoopResult(rest.state, done + rest.resolved, rest.status);
          forall k | k in c.pending
            ensures k in r.state.pending || exists i :: 0 <= i < |r.resolved| && r.resolved[i].seqNo == k
          {
            if k == h.seqNo {
              assert r.resolved[0].seqNo == k;
            } else if k !in r.state.pending {
              assert k in d.state.pending;
              var i :| 0 <= i < |rest.resolved| && rest.resolved[i].seqNo == k;
              assert r.resolved[|done| + i].seqNo == k;
            }
          }
        } else {
          assert r.resolved == done;
          forall k | k in c.pending
            ensures k in r.state.pending || exists i :: 0 <= i < |r.resolved| && r.resolved[i].seqNo == k
          {
            if k == h.seqNo {
              assert r.resolved[0].seqNo == k;
            }
          }
        }
    }
  }

  /** When the loop ends, every call still pending is the call that was pending
      at the start with the loop's error set and one more signal; calls still
      pending while it runs are untouched. */
  lemma {:induction false} ReceiveDrainsOnTermination(c: ClientState, frames: seq<Frame>)
    ensures var r := Receive(c, frames);
      && (r.status.Terminated? ==> forall k :: k in r.state.pending ==>
            && k in c.pending
            && r.state.pending[k] == c.pending[k].Fail(r.status.err).Signal()
            && r.state.pending[k].error == Some(r.status.err)
            && r.state.pending[k].signals == c.pending[k].signals + 1)
      && (r.status.Running? ==> r.state.shutdown == c.shutdown && forall k :: k in r.state.pending ==>
            r.state.pending[k] == c.pending[k])
    decreases |frames|
  {
    if |frames| > 0 {
      match frames[0]
      case HeaderFailed(msg) =>
      case Received(h, body) =>
        var d := DispatchFrame(c, h, body);
        if d.err.None? {
          ReceiveDrainsOnTermination(d.state, frames[1..]);
        }
    }
  }

  /** Once the loop has ended, no call is left unresolved: each call pending
      when it started was either completed by a response carrying its number
      (and holds that response's reply or error) or, still pending, carries the
      loop's error and has been signalled once more. */
  lemma TerminatedLoopResolvesEveryCall(c: ClientState, frames: seq<Frame>)
    requires Valid(c)
    requires Receive(c, frames).status.Terminated?
    ensures var r := Receive(c, frames);
      forall k :: k in c.pending ==>
        || (exists i :: 0 <= i < |r.resolved| && r.resolved[i].seqNo == k)
        || (&& k in r.state.pending
            && r.state.pending[k] == c.pending[k].Fail(r.status.err).Signal()
            && r.state.pending[k].error == Some(r.status.err)
            && r.state.pending[k].signals == c.pending[k].signals + 1)
    ensures RepliedBy(c, frames, Receive(c, frames))
  {
    ReceiveAccountsForEveryCall(c, frames);
    ReceiveDrainsOnTermination(c, frames);
    ReceiveDeliversMatchingReply(c, frames);
  }

  /** A cancelled call stays out of the registry: a late response for its
      number is discarded and the remaining registry is left as it is. */
  lemma LateResponseAfterRemovalIsDiscarded(c: ClientState, s: Uint64, h: Header, body: BodyRead)
    requires h.seqNo == s
    ensures var removed := Remove(c, s).state;
      var r := DispatchFrame(removed, h, body);
      r.state == removed && r.resolved == None
  {
    var removed := Remove(c, s).state;
    UnmatchedFrameIsDiscarded(removed, h, body);
  }
}

=== FILE: options.dfy ===
/** Option handling of client.go: `parseOption` merges the caller's option with
    the defaults, and `Dial` refuses a codec tag that no encoding is registered
    under before it opens a connection. The values of the package's
    `defaultOption` lie outside the modelled code, so the defaults are a
    parameter here. */
module Options {
  import opened Wrappers
  import opened Codec
  import opened Client

  /** `parseOption(opts...)`, each element of `opts` being a possibly nil `*Option`. */
  function ParseOption(defaults: Opt, opts: seq<Option<Opt>>): (r: Result<Opt, Error>)
    ensures r.Failure? <==> |opts| > 1 && opts[0].Some?
    ensures r.Failure? ==> r.error == TooManyOptions
    ensures (|opts| == 0 || opts[0].None?) ==> r == Success(defaults)
    ensures r.Success? ==> r.value.magicNumber == defaults.magicNumber
    ensures |opts| == 1 && opts[0].Some? ==>
      var given := opts[0].value;
      && r.Success?
      && r.value.codecType == (if given.codecType == "" then defaults.codecType else given.codecType)
      && r.value.connectionTimeout == (if given.connectionTimeout == 0 then defaults.connectionTimeout else given.connectionTimeout)
      && r.value.handleTimeout == (if given.handleTimeout == 0 then defaults.handleTimeout else given.handleTimeout)
  {
    if |opts| == 0 || opts[0].None? then
      Success(defaults)
    else if |opts| != 1 then
      Failure(TooManyOptions)
    else
      var given := opts[0].value;
      Success(Opt(
        defaults.magicNumber,
        if given.codecType == "" then defaults.codecType else given.codecType,
        if given.connectionTimeout == 0 then defaults.connectionTimeout else given.connectionTimeout,
        if given.handleTimeout == 0 then defaults.handleTimeout else given.handleTimeout))
  }

  /** No field of a merged option is left empty unless the default for it is
      empty too: the caller's non-zero values win, the defaults fill the rest. */
  lemma ParsedOptionIsFilledIn(defaults: Opt, opts: seq<Option<Opt>>)
    requires defaults.codecType != "" && defaults.connectionTimeout != 0 && defaults.handleTimeout != 0
    requires ParseOption(defaults, opts).Success?
    ensures var o := ParseOption(defaults, opts).value;
      o.codecType != "" && o.connectionTimeout != 0 && o.handleTimeout != 0
  {
  }

  /** Merging is idempotent: feeding a merged option back in gives it back unchanged. */
  lemma ParseOptionIdempotent(defaults: Opt, opts: seq<Option<Opt>>)
    requires ParseOption(defaults, opts).Success?
    ensures var o := ParseOption(defaults, opts).value;
      ParseOption(defaults, [Some(o)]) == Success(o)
  {
  }

  /** Only the first option is looked at when it is nil: further options are
      ignored rather than reported as too many. */
  lemma NilFirstOptionIgnoresTheRest(defaults: Opt, rest: seq<Option<Opt>>)
    ensures ParseOption(defaults, [None] + rest) == Success(defaults)
  {
  }

  /** How the start of `Dial` or `DialHTTP` ends: it goes on with the chosen
      encoding, returns an error to its caller, or panics. */
  datatype DialOutcome = Proceed(kind: CodecKind) | Returned(err: Error) | Panicked

  /** The function `Dial` and `DialHTTP` defer: once the named result `err` is
      set, it calls `Close` on the connection `rwc`. Calling a method on a nil
      `net.Conn` panics, so the error only reaches the caller when a
      connection was dialled. */
  function DeferredClose(dialled: bool, err: Error): (r: DialOutcome)
    ensures r.Panicked? <==> !dialled
    ensures dialled ==> r == Returned(err)
  {
    if dialled then Returned(err) else Panicked
  }

  /** The codec-tag check at the start of `Dial` and `DialHTTP` as written: an
      unregistered tag sets `err` and returns before `rwc` is dialled, so the
      deferred close runs on a nil connection. */
  function DialCodecCheckAsWritten(opt: Opt): (r: DialOutcome)
    ensures r.Proceed? <==> opt.codecType in {GobType, JsonType}
    ensures r.Proceed? ==> TypeTag(r.kind) == opt.codecType
    ensures !r.Proceed? ==> r.Panicked?
  {
    match Lookup(opt.codecType)
    case Some(kind) => Proceed(kind)
    case None => DeferredClose(false, InvalidCodecType(opt.codecType))
  }

  /** The code as written never reports an unknown codec tag: every option whose
      tag is not registered makes `Dial` panic, where the intended check
      (`SelectCodec`) returns "invalid codec type". */
  lemma UnknownCodecTagPanics(opt: Opt)
    requires opt.codecType != GobType && opt.codecType != JsonType
    ensures DialCodecCheckAsWritten(opt) == Panicked
    ensures SelectCodec(opt) == Failure(InvalidCodecType(opt.codecType))
  {
  }

  /** A concrete case: the tag "x" makes `Dial` panic. */
  lemma CodecTagXPanics()
    ensures DialCodecCheckAsWritten(Opt(0, "x", 0, 0)) == Panicked
  {
    UnknownCodecTagPanics(Opt(0, "x", 0, 0));
  }

  /** The check as intended agrees with the code wherever the code does not
      panic, and returns the error exactly where the code panics. */
  lemma SelectCodecCorrectsDialCheck(opt: Opt)
    ensures var asWritten := DialCodecCheckAsWritten(opt);
      && (asWritten.Proceed? ==> SelectCodec(opt) == Success(asWritten.kind))
      && (asWritten.Panicked? ==> SelectCodec(opt) == Failure(InvalidCodecType(opt.codecType)))
  {
  }

  /** The check `Dial` and `DialHTTP` are meant to make first: the option's
      codec tag must name a registered encoding, and otherwise the caller gets
      an "invalid codec type" error. */
  function SelectCodec(opt: Opt): (r: Result<CodecKind, Error>)
    ensures r.Success? <==> opt.codecType in {GobType, JsonType}
    ensures r.Success? ==> TypeTag(r.value) == opt.codecType
    ensures r.Failure? ==> r.error == InvalidCodecType(opt.codecType)
  {
    match Lookup(opt.codecType)
    case Some(kind) => Success(kind)
    case None => Failure(InvalidCodecType(opt.codecType))
  }
}

=== FILE: send.dfy ===
/** The request side of client.go: `Go` builds a call, `send` registers it and
    writes its header, and the synchronous `Call` removes its call when the
    caller's context is cancelled. The `sending` lock only serialises writes and
    is not modelled; the write itself is an abstract outcome. */
module Send {
  import opened Wrappers
  import opened Codec
  import opened Client
  import opened Dispatch

  /** The Done channel a caller passes to `Go`: nil, or a channel of some capacity. */
  datatype DoneChannel = NilChannel | Channel(capacity: nat)

  /** Capacity of the channel `Go` allocates when the caller passes nil. */
  const DefaultDoneCapacity: nat := 10

  /** `Go` up to the spawning of `send`: a nil channel is replaced by a fresh
      buffered one, an unbuffered channel is a panic, and the new call has no
      number, no error and no completion yet. */
  function NewCall(serviceMethod: string, args: Value, reply: Value, done: DoneChannel): (r: Result<Call, Error>)
    ensures r.Failure? <==> done == Channel(0)
    ensures r.Failure? ==> r.error == UnbufferedDone
    ensures r.Success? ==>
      && r.value.doneCap >= 1
      && (done == NilChannel ==> r.value.doneCap == DefaultDoneCapacity)
      && (done.Channel? ==> r.value.doneCap == done.capacity)
      && r.value.seqNo == 0 && r.value.error == None && r.value.signals == 0
      && r.value.serviceMethod == serviceMethod && r.value.args == args && r.value.reply == reply
  {
    match done
    case NilChannel => Success(Call(0, serviceMethod, args, reply, None, DefaultDoneCapacity, 0))
    case Channel(capacity) =>
      if capacity == 0 then Failure(UnbufferedDone)
      else Success(Call(0, serviceMethod, args, reply, None, capacity, 0))
  }

  /** Outcome of `send`, or of its first half: the registry, the header written
      (None when nothing reaches the wire) and the caller's `*Call` as `send`
      leaves it. `registerCall` writes the number into that same call, and
      `send` sets its error and signals it in place, so the call the caller
      holds is the one filed in the registry. */
  datatype Sent = Sent(state: ClientState, written: Option<Header>, call: Call)

  /** `send` up to the write: register the call; if that is refused, complete
      the call with ErrShutdown and write nothing; otherwise write a header
      carrying the assigned number and an empty error. */
  function SendBegin(c: ClientState, call: Call): (r: Sent)
    ensures r.written.Some? <==> IsAvailable(c)
    ensures r.written.None? ==>
      && r.state == c
      && r.call == call.Fail(ErrShutdown).Signal()
    ensures r.written.Some? ==>
      && r.call == call.(seqNo := c.nextSeq)
      && r.written.value == Header(call.serviceMethod, c.nextSeq, "")
      && r.written.value.seqNo in r.state.pending
      && r.state.pending[r.written.value.seqNo] == r.call
      && r.state == Register(c, call).state
  {
    var reg := Register(c, call);
    if reg.err.Some? then
      Sent(c, None, call.Fail(reg.err.value).Signal())
    else
      Sent(reg.state, Some(Header(call.serviceMethod, reg.seqNo, "")), call.(seqNo := reg.seqNo))
  }

  /** The second half of `send`, given the outcome of the write of the call
      numbered `s`: on failure the call is removed and, if it was still
      pending, completed with the write error. */
  function SendFinish(c: ClientState, s: Uint64, write: Option<Error>): (r: Removal)
    ensures write.None? ==> r == Removal(c, None)
    ensures write.Some? ==>
      && r.state == Remove(c, s).state
      && (r.call.Some? <==> s in c.pending)
      && (r.call.Some? ==> r.call.value == c.pending[s].Fail(write.value).Signal())
  {
    if write.None? then Removal(c, None)
    else
      var removal := Remove(c, s);
      match removal.call
      case None => Removal(removal.state, None)
      case Some(pendingCall) => Removal(removal.state, Some(pendingCall.Fail(write.value).Signal()))
  }

  /** `send` as one atomic step, with `write` the outcome of the codec's Write.
      The caller's call is completed by `send` itself exactly when the client
      refuses it or the write fails. */
  function Send(c: ClientState, call: Call, write: Option<Error>): (r: Sent)
    ensures r.written.Some? <==> IsAvailable(c)
    ensures r.written.Some? ==>
      && r.written.value.seqNo == c.nextSeq && r.written.value.error == ""
      && r.call.seqNo == c.nextSeq
    ensures r.written.None? ==> r.call.seqNo == call.seqNo
    ensures r.call.signals == call.signals + (if IsAvailable(c) && write.None? then 0 else 1)
  {
    var start := SendBegin(c, call);
    match start.written
    case None => start
    case Some(h) =>
      var finish := SendFinish(start.state, h.seqNo, write);
      match finish.call
      case None => Sent(finish.state, start.written, start.call)
      case Some(failed) => Sent(finish.state, start.written, failed)
  }

  /** A refused send never reaches the wire, leaves the registry alone and
      completes the call with ErrShutdown. */
  lemma RefusedSendNeverWrites(c: ClientState, call: Call, write: Option<Error>)
    requires !IsAvailable(c)
    ensures var r := Send(c, call, write);
      && r.written == None && r.state == c
      && r.call == call.Fail(ErrShutdown).Signal()
      && r.call.error == Some(ErrShutdown)
      && r.call.signals == call.signals + 1
  {
  }

  /** A successful send numbers the caller's call, leaves it pending under the
      number in the header and does not complete it. */
  lemma SuccessfulSendLeavesCallPending(c: ClientState, call: Call)
    requires IsAvailable(c)
    ensures var r := Send(c, call, None);
      && r.call == call.(seqNo := c.nextSeq)
      && r.written == Some(Header(call.serviceMethod, c.nextSeq, ""))
      && r.state == Register(c, call).state
      && r.state.pending[c.nextSeq] == r.call
  {
  }

  /** A failed write takes the call back out of the registry, leaving the
      pending calls as they were, and completes it with the write error; only
      the counter has moved on. */
  lemma FailedWriteRestoresRegistry(c: ClientState, call: Call, e: Error)
    requires Valid(c) && IsAvailable(c)
    ensures var r := Send(c, call, Some(e));
      && r.state.pending == c.pending
      && r.state.nextSeq == Inc64(c.nextSeq)
      && r.written == Some(Header(call.serviceMethod, c.nextSeq, ""))
      && r.call == call.(seqNo := c.nextSeq).Fail(e).Signal()
  {
    RemoveUndoesRegister(c, call);
  }

  /** If the call has already left the registry when its write fails (it was
      cancelled, or its response already arrived), the failure changes nothing. */
  lemma WriteFailureAfterRemovalIsNoop(c: ClientState, s: Uint64, e: Error)
    requires s !in c.pending
    ensures SendFinish(c, s, Some(e)) == Removal(c, None)
  {
    assert c.pending - {s} == c.pending;
  }

  /** Result of a cancelled synchronous `Call`: the registry and the error returned. */
  datatype Cancelled = Cancelled(state: ClientState, err: Error)

  /** The cancellation branch of `Call`: remove the call under the number it
      carries and report the context's error. The call itself is not completed. */
  function Cancel(c: ClientState, call: Call, ctxErr: string): (r: Cancelled)
    ensures r.state == Remove(c, call.seqNo).state
    ensures call.seqNo !in r.state.pending
    ensures r.err == Canceled(ctxErr)
  {
    Cancelled(Remove(c, call.seqNo).state, Canceled(ctxErr))
  }

  /** Cancelling before `send` has registered the call removes the reserved
      number 0, which a valid registry never holds: nothing changes. */
  lemma CancelBeforeRegistrationIsNoop(c: ClientState, call: Call, ctxErr: string)
    requires Valid(c) && call.seqNo == 0
    ensures Cancel(c, call, ctxErr).state == c
  {
    RemoveZeroIsNoop(c);
  }

  /** A call `Go` has just built carries no number yet, so cancelling it before
      `send` runs leaves a valid registry as it was. */
  lemma CancelNewCallIsNoop(c: ClientState, serviceMethod: string, args: Value, reply: Value,
                            done: DoneChannel, ctxErr: string)
    requires Valid(c) && NewCall(serviceMethod, args, reply, done).Success?
    ensures Cancel(c, NewCall(serviceMethod, args, reply, done).value, ctxErr).state == c
  {
    CancelBeforeRegistrationIsNoop(c, NewCall(serviceMethod, args, reply, done).value, ctxErr);
  }

  /** Cancelling a call after `send` has filed it removes the registered entry,
      because the number was written into the caller's own call: the pending
      map is as before the send, and a response arriving afterwards for that
      number is discarded. */
  lemma SendThenCancelRestoresRegistry(c: ClientState, call: Call, ctxErr: string, h: Header, body: BodyRead)
    requires Valid(c) && IsAvailable(c)
    requires h.seqNo == c.nextSeq
    ensures var sent := Send(c, call, None);
      var cancelled := Cancel(sent.state, sent.call, ctxErr).state;
      && sent.call.seqNo == h.seqNo
      && cancelled.pending == c.pending
      && cancelled.nextSeq == Inc64(c.nextSeq)
      && DispatchFrame(cancelled, h, body).state == cancelled
      && DispatchFrame(cancelled, h, body).resolved == None
  {
    var sent := Send(c, call, None);
    RemoveUndoesRegister(c, call);
    var cancelled := Cancel(sent.state, sent.call, ctxErr).state;
    assert c.nextSeq !in c.pending;
    UnmatchedFrameIsDiscarded(cancelled, h, body);
  }
}

=== FILE: trace.dfy ===
/** Any interleaving of the registry's atomic operations, as performed by the
    callers' `send`s and cancellations, the dispatch loop and `Close`. The
    locks of client.go make each operation one step; the order of the steps is
    arbitrary, so the properties below hold for every sequence of them. */
module Trace {
  import opened Wrappers
  import opened Codec
  import opened Client
  import opened Dispatch

  /** One atomic operation on the registry. */
  datatype Op =
    | DoRegister(call: Call)                      // registerCall, from send
    | DoRemove(seqNo: Uint64)                     // removeCall, from send or a cancelled Call
    | DoDispatch(header: Header, body: BodyRead)  // one iteration of receive
    | DoTerminate(err: Error)                     // terminateCalls, at the end of receive
    | DoClose(connClose: Option<Error>)           // Close

  /** The registry after one operation. */
  function Step(c: ClientState, op: Op): ClientState {
    match op
    case DoRegister(call) => Register(c, call).state
    case DoRemove(s) => Remove(c, s).state
    case DoDispatch(h, body) => DispatchFrame(c, h, body).state
    case DoTerminate(err) => TerminateCalls(c, err)
    case DoClose(connClose) => Close(c, connClose).state
  }

  /** The registry after a sequence of operations, first to last. */
  function Run(c: ClientState, ops: seq<Op>): ClientState
    decreases |ops|
  {
    if |ops| == 0 then c else Run(Step(c, ops[0]), ops[1..])
  }

  /** The number one operation hands out: the counter's value for a successful
      registration, nothing for anything else. */
  function Handed(c: ClientState, op: Op): (r: seq<Uint64>)
    ensures r == [] || (r == [c.nextSeq] && op.DoRegister? && IsAvailable(c))
  {
    match op
    case DoRegister(call) => (var reg := Register(c, call); if reg.err.None? then [reg.seqNo] else [])
    case _ => []
  }

  /** The numbers handed out by the successful registrations among `ops`, in order. */
  function Assigned(c: ClientState, ops: seq<Op>): seq<Uint64>
    decreases |ops|
  {
    if |ops| == 0 then [] else Handed(c, ops[0]) + Assigned(Step(c, ops[0]), ops[1..])
  }

  /** One operation keeps the registry valid as long as the counter has not
      reached its last value, and moves the counter by at most one. */
  lemma StepPreservesValid(c: ClientState, op: Op)
    requires Valid(c) && c.nextSeq < MaxUint64
    ensures Valid(Step(c, op))
    ensures c.nextSeq <= Step(c, op).nextSeq <= c.nextSeq + 1
  {
    match op
    case DoRegister(call) =>
      if IsAvailable(c) {
        RegisterIsFresh(c, call);
      }
    case DoRemove(s) => RemovePreservesValid(c, s);
    case DoDispatch(h, body) => RemovePreservesValid(c, h.seqNo);
    case DoTerminate(err) =>
    case DoClose(connClose) =>
  }

  /** At most MaxUint64 - nextSeq operations never wrap the counter, and keep
      the registry valid throughout. */
  lemma {:induction false} RunPreservesValid(c: ClientState, ops: seq<Op>)
    requires Valid(c) && c.nextSeq + |ops| <= MaxUint64
    ensures Valid(Run(c, ops))
    ensures c.nextSeq <= Run(c, ops).nextSeq <= c.nextSeq + |ops|
    decreases |ops|
  {
    if |ops| > 0 {
      StepPreservesValid(c, ops[0]);
      RunPreservesValid(Step(c, ops[0]), ops[1..]);
    }
  }

  /** The numbers strictly increase and all lie in [lo, hi). */
  ghost predicate IncreasingWithin(numbers: seq<Uint64>, lo: int, hi: int) {
    && (forall i, j :: 0 <= i < j < |numbers| ==> numbers[i] < numbers[j])
    && (forall i :: 0 <= i < |numbers| ==> lo <= numbers[i] < hi)
  }

  /** Whatever else happens in between, successive registrations are handed
      strictly increasing numbers, all at least the counter's starting value
      (so never 0, and never a number already pending) and all below its final
      value. */
  lemma {:induction false} AssignedNumbersIncrease(c: ClientState, ops: seq<Op>)
    requires Valid(c) && c.nextSeq + |ops| <= MaxUint64
    ensures IncreasingWithin(Assigned(c, ops), c.nextSeq, Run(c, ops).nextSeq)
    ensures forall i :: 0 <= i < |Assigned(c, ops)| ==>
      Assigned(c, ops)[i] != 0 && Assigned(c, ops)[i] !in c.pending
    decreases |ops|
  {
    if |ops| > 0 {
      var next := Step(c, ops[0]);
      StepPreservesValid(c, ops[0]);
      AssignedNumbersIncrease(next, ops[1..]);
      RunPreservesValid(next, ops[1..]);
      var rest := Assigned(next, ops[1..]);
      assert IncreasingWithin(rest, next.nextSeq, Run(next, ops[1..]).nextSeq);
      assert Assigned(c, ops) == Handed(c, ops[0]) + rest;
      if Handed(c, ops[0]) != [] {
        assert next.nextSeq == c.nextSeq + 1;
      }
    }
  }

  /** `closing` and `shutdown` never go back to false, so a client that stops
      being available stays unavailable: no later registration succeeds and
      no number is handed out again. */
  lemma {:induction false} UnavailableIsFinal(c: ClientState, ops: seq<Op>)
    ensures c.closing ==> Run(c, ops).closing
    ensures c.shutdown ==> Run(c, ops).shutdown
    ensures !IsAvailable(c) ==> !IsAvailable(Run(c, ops)) && Assigned(c, ops) == []
    ensures !IsAvailable(c) ==> Run(c, ops).pending.Keys <= c.pending.Keys
    decreases |ops|
  {
    if |ops| > 0 {
      UnavailableIsFinal(Step(c, ops[0]), ops[1..]);
    }
  }
}

=== FILE: wrappers.dfy ===
/** The two shapes Go gives optional results: `Option` stands for a value that
    may be nil, `Result` for a `(value, error)` pair. */
module Wrappers {

  /** A value that may be absent (Go's nil pointer or nil error). */
  datatype Option<+T> = None | Some(value: T)

  /** Either a value or an error, never both. */
  datatype Result<+T, +E> = Success(value: T) | Failure(error: E)
}
